=== FILE: README.md ===
# Gardening Product Scanner — a Dafny model of its request rules

The Gardening Product Scanner is a small web application. A user types a gardening
product or an ingredient list, and the server forwards it to a chat-completion
model. The server then checks and normalises the JSON that comes back, and the page
shows the scores with a colour and an icon, plus a shopping link for a recommended
alternative. A product-name list offers autocomplete, and users can append names to it.

This project models the deterministic rules inside the route handlers and page
helpers as pure Dafny functions, and proves what those rules promise:

- **Word capping** (`capWords`) of the overall summary to 50 words (module `WordCap`,
  built on the JavaScript string primitives in `Text` and the JSON value model in `Json`).
- **Affiliate-link building** (`buildAmazonSearchLink`) (module `Affiliate`). It uses
  `encodeURIComponent`, modelled in `UriEncoding` for well-formed text (sequences of
  Unicode scalar values): UTF-8 followed by percent-encoding with upper-case
  hexadecimal (section 2.1 of RFC 3986).
- **Scan-result normalisation** and the `/api/scan` route (module `ScanResponse`).
  The completion text is parsed or the request fails. A truthy `overall.summary` is
  capped. `String()` throws a TypeError on an object with its own `toString` key,
  and that makes the request fail with 500. The link is derived from `keywords`, then `alternative`, then `""`. It
  overwrites any `affiliateLink` the model supplied, and every other field passes
  through.
- **The product store** behind `/api/suggestions` and `/api/add-product` (module
  `ProductStore`). It is an immutable `seq<string>`. Search is a case-insensitive
  substring filter that returns at most five names. Add is append-if-absent under
  case-insensitive comparison.
- **Score tiers** (`getScoreColor` and `getScoreIcon`) (module `ScoreTier`). A score
  reaches the good tier at 75 percent of `max` and the caution tier at 50 percent.
- **The page's input guards** in `handleScan` and `handleAddProduct` (module
  `ClientGuards`).

Each handler becomes a function from its request fields to a reply. For the product
store, the current list is an extra input and the new list is part of the reply.
Effects are parameters: `JSON.parse` is a `Parser` function value, and the upstream
completion call is a function from the prompt to an `Upstream` outcome. The partner
tag read from the environment is a plain `tag` argument.

Three behaviours of the code are easy to miss:
- A missing or empty completion is read as `"{}"` (`server/index.js:186`). It is not
  reported as an error. The result then holds only `recommendation.affiliateLink`
  (`ScanResponse.EmptyCompletionResult`).
- The link falls back to `alternative` whenever `keywords` is falsy, and not only when
  it is absent (`ScanResponse.KeywordSource`).
- Suggestions match any substring, not only a prefix.

## Model

| member | source | states |
|---|---|---|
| Text.Trim | server/index.js:122 | `trim` returns the input with only a blank prefix and a blank suffix removed, so neither end of the result is whitespace; already-trimmed text comes back unchanged, and the result is "" exactly when every character is ECMAScript whitespace |
| Text.SplitPieces | server/index.js:122 | `split(/\s+/)` gives pieces without whitespace, of which only the first and last can be empty; the first is empty exactly when the text is empty or starts with whitespace, and there is more than one piece exactly when the text holds whitespace; the text is exactly those pieces with a non-empty run of whitespace between each neighbouring pair |
| Text.Lower | server/index.js:91-95 | ASCII `toLowerCase` keeps the length, leaves no capital A-Z, maps each capital to its lower-case letter and keeps every other character |
| Text.ContainsAt | server/index.js:95 | `includes` holds exactly when the query occurs in the name at some offset |
| Text.JoinWithSnoc | server/index.js:124 | `join` of a non-empty list with one more word appended is the old join, the separator, then that word |
| Text.JoinWithLength | server/index.js:124 | a joined list is as long as its words together plus one separator per neighbouring pair |
| Text.SplitJoin | server/index.js:122-124 | splitting a space-joined list of words on `/\s+/` gives back exactly those words |
| Text.PartsOfJoinedPrefix | server/index.js:122-124 | trimming and splitting the first n words joined by single spaces yields exactly those n words |
| WordCap.CapWords | server/index.js:120-125 | a falsy value or one with at most `max` words comes back as the very value passed in, untrimmed; a longer one becomes its first `max` words joined by single spaces, which split back into exactly those words; the result never has more than `max` words, and with `max` 0 it is falsy; it throws exactly on a truthy value `String()` cannot convert |
| WordCap.CapWordsIdempotent | server/index.js:120-125 | capping an already capped value changes nothing |
| WordCap.CapStringWords | server/index.js:122-124 | for a string summary, more than `max` words are cut to exactly `max` words and `max` or fewer leave it untouched |
| Json.Prop | server/index.js:196-203 | optional chaining yields a value only for an object holding that key, and then the key's value |
| Json.ToJsString | server/index.js:120-129 | `String()` gives a string itself, "[object Object]" for an object without its own `toString` key, `null`, `true`/`false` and a number's own digits for the primitives, "" for an empty array, and for a one-element array what its element gives, or "" when that element is `null`; it is defined only where `Converts` holds, that is, where `String()` does not throw |
| Json.ArrayString | server/index.js:120-129 | `String()` of an array of two or more elements is its first element (or "" for `null`), a comma, and the rest of the array converted alike |
| Json.FalsyValues | server/index.js:196-203 | the falsy JSON values are exactly `null`, `false`, `0` and `""`, and `String()` converts each of them |
| Json.FalsyHasOnePart | server/index.js:121-123 | a falsy value's string form splits into exactly one piece, so it always fits the word limit |
| UriEncoding.Encode | server/index.js:129-130 | the encoder emits only unreserved characters and '%', so never '&', and copies unreserved text unchanged |
| UriEncoding.DecodeEncode | server/index.js:129-130 | percent-decoding the encoded text gives its UTF-8 bytes |
| UriEncoding.Utf8RoundTrip | server/index.js:129-130 | the UTF-8 bytes the encoder writes decode back to the original characters |
| UriEncoding.DecodeTextEncode | server/index.js:129-130 | decoding an encoded component gives back the original text |
| UriEncoding.EncodeInjective | server/index.js:129-130 | distinct texts never encode to the same component |
| Affiliate.SearchLink | server/index.js:127-132 | the link always starts with the search base and "?k=", contains '&' exactly when a tag is set, and that '&' is the only one, right after the encoded keywords |
| Affiliate.ReadSearchLink | server/index.js:127-132 | reading a built link back yields the keywords and, only when a tag is set, the tag |
| Affiliate.SearchLinkInjective | server/index.js:127-132 | different keywords or tags always give different links |
| ScanResponse.CompletionText | server/index.js:186 | a present, non-empty completion is parsed as sent; a missing or empty one is parsed as "{}" |
| ScanResponse.Summary | server/index.js:196 | `result?.overall?.summary` is present exactly when `overall` is an object holding a summary, and is then that summary |
| ScanResponse.CapOverall | server/index.js:197 | the `overall` object gets its summary replaced by the summary's 50-word cap, with the same keys and every other field kept; it throws exactly when capping the summary throws |
| ScanResponse.CapSummary | server/index.js:196-198 | only `overall.summary` changes, and only when it is truthy, where it becomes its 50-word cap; all other top-level and `overall` fields are kept; capping throws exactly when the truthy summary does not convert |
| ScanResponse.KeywordSource | server/index.js:200-203 | the link text is a truthy `keywords`, else a truthy `alternative`, else "" |
| ScanResponse.DerivedLink | server/index.js:200-205 | the link is missing exactly when `String()` throws on the keyword source; otherwise it reads back as that source's text and, only when a tag is configured, the tag |
| ScanResponse.SpreadFields | server/index.js:208 | spreading `result.recommendation || {}` copies an object's own fields, and no field at all when the recommendation is missing or falsy |
| ScanResponse.AttachLink | server/index.js:205-210 | `recommendation` becomes an object holding the upstream recommendation's fields plus `affiliateLink` set to the derived link, overwriting any upstream value; no other top-level field changes |
| ScanResponse.Normalize | server/index.js:186-212 | a parse failure, and only that, fails as not-JSON; a `String()` conversion that throws on the truthy summary or on the keyword source, and only that, fails as a thrown error; otherwise every top-level field except `overall` and `recommendation` passes through, `overall` is the capped one (its other fields kept) and `recommendation.affiliateLink` is the derived link |
| ScanResponse.CapSummaryKeepsLink | server/index.js:196-205 | capping the summary does not change the recommendation or the derived link |
| ScanResponse.NormalizeRecommendation | server/index.js:200-210 | in a normalised result every upstream recommendation field except `affiliateLink` survives unchanged, and `affiliateLink` is the derived one |
| ScanResponse.NormalizeSummary | server/index.js:196-198 | a normalised result's summary is present exactly when the parsed one was; a truthy one is replaced by its 50-word cap, so it has at most 50 words and, when it had more, is its first 50 words joined by spaces; one already within the limit is the original value |
| ScanResponse.LinkIgnoresUpstream | server/index.js:200-210 | results that agree on `keywords` and `alternative` get the same link, whatever else their recommendations hold |
| ScanResponse.EmptyKeywordsLink | server/index.js:200-205 | with no truthy keywords or alternative the link searches for "" |
| ScanResponse.EmptyCompletionResult | server/index.js:186-210 | a missing or empty completion yields an object holding only `recommendation.affiliateLink`, built from "" |
| ScanResponse.ScanRoute | server/index.js:135-221 | a missing, empty or non-string prompt gets 400 "A valid prompt is required." and a valid one never does; a thrown upstream call gets 500 "Failed to process request" with its details, a JSON value; unparsable text gets 500 "AI response was not valid JSON."; a conversion that throws gets 500 "Failed to process request" with the TypeError's message; otherwise the reply is the normalised result, and it is a success exactly in that case |
| ScanResponse.OwnToStringSummaryFails | server/index.js:186-219 | for any completion whose parsed `overall.summary` is an object with its own "toString" key, the route answers 500 "Failed to process request" with the TypeError's message |
| ProductStore.Filter | server/index.js:94-96 | the filter keeps store order and holds every stored name whose lower-cased form contains the query, as many times as the store holds it, and nothing else |
| ProductStore.Suggestions | server/index.js:90-99 | a missing or empty query gives []; otherwise the reply is the first at most five matching names in store order; every reply is a stored match, and a reply shorter than five holds every match |
| ProductStore.SuggestionsIgnoreQueryCase | server/index.js:91 | the query's letter case does not change the suggestions |
| ProductStore.AddProduct | server/index.js:102-117 | a missing, empty or non-string name fails with "Invalid product name."; a case-insensitive duplicate fails with "Product already exists."; both leave the list unchanged; any other name is accepted and appended exactly as sent, and that is the only way to succeed; case-insensitive uniqueness is preserved |
| ProductStore.AddTwiceRejected | server/index.js:109-113 | once a name is added, adding it again in any letter case is refused as a duplicate and leaves the list unchanged |
| ProductStore.AddAppendsOne | server/index.js:109-113 | the list only grows, by one entry on success and by none on failure, and its old entries stay in place |
| ProductStore.DefaultProductsUnique | server/index.js:50-62 | the seed list has no case-insensitive duplicates |
| ScoreTier.ScoreColor | src/App.js:93-98 | the colour is always one of green, orange or red |
| ScoreTier.ScoreIcon | src/App.js:101-106 | the icon is always one of "✅", "⚠️" or "❌" |
| ScoreTier.HelpersMatchTier | src/App.js:93-106 | for a positive `max`, colour and icon are green/"✅" from 75 percent, orange/"⚠️" from 50 percent and red/"❌" below, measured on the rounded-down whole percentage |
| ScoreTier.ColorAndIconAgree | src/App.js:93-106 | colour and icon select the same tier for every `(score, max)` |
| ScoreTier.NonNumericIsPoor | src/App.js:94-97 | a non-numeric score is always red with "❌" |
| ScoreTier.TierMonotone | src/App.js:94-97 | for a fixed positive `max` a higher score never gets a worse tier |
| ScoreTier.FivePointTiers | src/App.js:178-200 | on the five-point safety and effectiveness scales, 4 and 5 are good, 3 is caution, and 1 and 2 are poor |
| ScoreTier.DefaultMaxThresholds | src/App.js:93-97 | with the default `max` of 100, green starts at 75, orange at 50, and red is below 50 |
| ClientGuards.HandleScan | src/App.js:38-42 | a whitespace-only prompt shows "Please enter a product or description." and sends nothing; any other prompt is sent untrimmed |
| ClientGuards.HandleAddProduct | src/App.js:68-72 | a whitespace-only name shows "Enter a valid product name." and sends nothing; any other name is sent untrimmed |
| ClientGuards.ScanRequestPassesServerGuard | src/App.js:39-52 | a prompt the page sends never gets the server's 400 "A valid prompt is required." |
| ClientGuards.AddRequestPassesServerGuard | src/App.js:69-77 | a name the page sends is never refused as invalid by the server, only possibly as a duplicate |

## Left out

- Express wiring is not modelled: CORS, dotenv, the API-key startup check, `process.exit`, static serving of the built page, `listen`, and the `/api/health` and `/api/__probe` routes. These are framework plumbing with no rules of their own.
- File persistence is not modelled: loading `products.json`, writing the seed list, and `saveProducts`. The store is the in-memory list passed in and returned. A list loaded from a hand-edited file need not be case-unique, so uniqueness is proved as an invariant that `AddProduct` preserves, plus a fact about the seed list.
- The completion call and its prompt text are not modelled. The call is the `upstream` parameter, and its outcome is a completion whose content may be missing, or a thrown error with details (the parsed error body or the message text, as a JSON value).
- `JSON.parse` is the `Parser` parameter. It is restricted to object results, and a top-level `null`, array or number is not modelled.
- JSON numbers are held as the text `String(n)` gives for them, and are not computed.
- `toLowerCase` is ASCII-only. Unicode case mapping is not modelled.
- A query parameter given several times arrives as an array and makes `toLowerCase` throw. The model's `q` is a string or missing.
- ScanResponse.SpreadFields: a truthy string or array `recommendation` would be spread by index keys ("0", "1", ...). The model copies no fields from it, because such a payload does not match the result shape the server asks the model for.
- The score helpers' floating-point division is not modelled. The percentage is compared exactly by cross-multiplication, so scores whose float quotient rounds across a threshold are not modelled.
- ScoreTier.ScoreColor: a score reaches the helpers as a whole number or as NaN (`None`). Fractional scores such as 3.5 out of 5 are not modelled, and neither is JavaScript's coercion of strings, booleans and arrays to numbers.
- ScoreTier.ScoreIcon: takes scores in the same form as `ScoreColor`, so fractional scores are left out here too.
- UriEncoding.Encode: a lone surrogate makes `encodeURIComponent` throw a URIError, which the server answers with 500. `JSON.parse` can produce one from a `"\ud800"` escape in `keywords`. Dafny strings hold Unicode scalar values only, so this case cannot be expressed and is not modelled.
- The details of a thrown conversion are Node.js's TypeError message. Other engines word it differently.
- React state, hooks and rendering are not modelled. The per-keystroke suggestion fetch in `handleChange` is not modelled either, and neither is the race between overlapping requests.
- `api/scan.js` is not part of this model. It is an alternate serverless handler that only fills in a prompt template, makes a fetch and passes the reply through.
- `src/apiBase.js` and `capacitor.config.ts` are not part of this model. They hold configuration constants only.

=== FILE: affiliate.dfy ===
/** `buildAmazonSearchLink(q, tag)`: the marketplace search URL for a keyword
    string, with the partner tag appended as a second query parameter only when
    one is configured. `ReadLink` is an independent reader of such URLs that
    recovers the two parameters. */
module Affiliate {
  import opened Wrappers
  import opened Text
  import opened UriEncoding

  const SearchBase: string := "https://www.amazon.com/s"

  /** Everything before the encoded keywords. */
  const KeyPrefix: string := SearchBase + "?k="

  const TagKey: string := "tag="

  function SearchLink(q: string, tag: string): (r: string)
    ensures IsPrefix(KeyPrefix, r)
    // The tag parameter is present exactly when a tag is configured ...
    ensures ('&' in r) <==> tag != ""
    // ... and its '&' is the only one, right after the encoded keywords.
    ensures forall i :: 0 <= i < |r| && r[i] == '&' ==> i == |KeyPrefix| + |Encode(q)|
  {
    var head := KeyPrefix + Encode(q);
    NoAmpConcat(KeyPrefix, Encode(q));
    if tag == "" then head
    else
      var param := TagKey + Encode(tag);
      NoAmpConcat(TagKey, Encode(tag));
      AmpOnlyAt(head, param);
      head + "&" + param
  }

  predicate NoAmp(s: string) {
    forall i :: 0 <= i < |s| ==> s[i] != '&'
  }

  lemma NoAmpConcat(a: string, b: string)
    requires NoAmp(a) && NoAmp(b)
    ensures NoAmp(a + b)
  {
    forall i | 0 <= i < |a + b| ensures (a + b)[i] != '&' {
      if i >= |a| {
        assert (a + b)[i] == b[i - |a|];
      }
    }
  }

  /** In `a + "&" + d` with no '&' in `a` or `d`, the only '&' is at `|a|`. */
  lemma AmpOnlyAt(a: string, d: string)
    requires NoAmp(a) && NoAmp(d)
    ensures var s := a + "&" + d;
      s[|a|] == '&' && forall i :: 0 <= i < |s| && s[i] == '&' ==> i == |a|
  {
    var s := a + "&" + d;
    forall i | 0 <= i < |s| && i != |a| ensures s[i] != '&' {
      if i > |a| {
        assert s[i] == d[i - |a| - 1];
      }
    }
  }

  /** Splits at the first occurrence of `c`: the text before it and, when `c`
      occurs, the text after it. */
  function SplitFirst(s: string, c: char): (string, Option<string>)
  {
    if s == [] then ([], None)
    else if s[0] == c then ([], Some(s[1..]))
    else
      var (a, b) := SplitFirst(s[1..], c);
      ([s[0]] + a, b)
  }

  /** The decoded query parameters of a search link: the keyword bytes and, when
      a second parameter is present, the tag bytes. */
  function ReadLink(link: string): Option<(seq<Byte>, Option<seq<Byte>>)>
  {
    if !IsPrefix(KeyPrefix, link) then None else ReadParams(link[|KeyPrefix|..])
  }

  /** The text after "?k=": the keywords up to the first '&', then optionally
      "tag=" and the tag. */
  function ReadParams(params: string): Option<(seq<Byte>, Option<seq<Byte>>)>
  {
    var (k, rest) := SplitFirst(params, '&');
    match Decode(k)
    case None => None
    case Some(keywords) =>
      match rest
      case None => Some((keywords, None))
      case Some(param) =>
        if !IsPrefix(TagKey, param) then None
        else
          match Decode(param[|TagKey|..])
          case None => None
          case Some(t) => Some((keywords, Some(t)))
  }

  lemma {:induction false} SplitFirstAbsent(a: string, c: char)
    requires c !in a
    ensures SplitFirst(a, c) == (a, None)
  {
    if a != [] {
      assert a[0] in a;
      SplitFirstAbsent(a[1..], c);
      assert a == [a[0]] + a[1..];
    }
  }

  lemma {:induction false} SplitFirstAt(a: string, c: char, b: string)
    requires c !in a
    ensures SplitFirst(a + [c] + b, c) == (a, Some(b))
  {
    if a == [] {
      assert (a + [c] + b)[1..] == b;
    } else {
      assert a[0] in a;
      assert (a + [c] + b)[0] == a[0];
      assert (a + [c] + b)[1..] == a[1..] + [c] + b;
      SplitFirstAt(a[1..], c, b);
      assert a == [a[0]] + a[1..];
    }
  }

  lemma ReadParamsKeywordsOnly(q: string)
    ensures ReadParams(Encode(q)) == Some((Utf8(q), None))
  {
    assert '&' !in Encode(q);
    SplitFirstAbsent(Encode(q), '&');
    DecodeEncode(q);
  }

  lemma ReadParamsWithTag(q: string, tag: string)
    ensures ReadParams(Encode(q) + "&" + (TagKey + Encode(tag)))
      == Some((Utf8(q), Some(Utf8(tag))))
  {
    var param := TagKey + Encode(tag);
    assert '&' !in Encode(q);
    SplitFirstAt(Encode(q), '&', param);
    DecodeEncode(q);
    assert IsPrefix(TagKey, param);
    assert param[|TagKey|..] == Encode(tag);
    DecodeEncode(tag);
  }

  /** The text after a prefix is what was appended to it. */
  lemma DropPrefix(a: string, b: string)
    ensures IsPrefix(a, a + b) && (a + b)[|a|..] == b
  {
  }

  /** Reading a built link gives back the UTF-8 bytes of the keywords and, exactly
      when a tag is configured, of the tag. */
  lemma ReadSearchLink(q: string, tag: string)
    ensures ReadLink(SearchLink(q, tag))
      == Some((Utf8(q), if tag == "" then None else Some(Utf8(tag))))
  {
    if tag == "" {
      assert SearchLink(q, tag) == KeyPrefix + Encode(q);
      DropPrefix(KeyPrefix, Encode(q));
      ReadParamsKeywordsOnly(q);
    } else {
      var params := Encode(q) + "&" + (TagKey + Encode(tag));
      assert SearchLink(q, tag) == KeyPrefix + params;
      DropPrefix(KeyPrefix, params);
      ReadParamsWithTag(q, tag);
    }
  }

  /** Different keywords or different tags always give different links. */
  lemma SearchLinkInjective(q1: string, tag1: string, q2: string, tag2: string)
    requires SearchLink(q1, tag1) == SearchLink(q2, tag2)
    ensures q1 == q2 && tag1 == tag2
  {
    ReadSearchLink(q1, tag1);
    ReadSearchLink(q2, tag2);
    Utf8RoundTrip(q1);
    Utf8RoundTrip(q2);
    if tag1 != "" {
      Utf8RoundTrip(tag1);
      Utf8RoundTrip(tag2);
    }
  }
}

=== FILE: cap_words.dfy ===
/** `capWords(text, max)`: keeps the first `max` whitespace-delimited words of a
    summary, joined by single spaces, and returns any text that is falsy or
    already short enough exactly as it came, untrimmed. A truthy value that
    `String()` cannot convert makes it throw. */
module WordCap {
  import opened Wrappers
  import opened Text
  import opened Json

  /** True when `capWords` would return `text` itself. */
  predicate FitsWithin(text: Value, max: nat) {
    !Truthy(text) || (Converts(text) && |Parts(ToJsString(text))| <= max)
  }

  /** `capWords(text, max)`; `None` stands for the TypeError `String(text)` throws. */
  function CapWords(text: Value, max: nat): (r: Option<Value>)
    // It throws exactly on a truthy value that does not convert.
    ensures r.None? <==> Truthy(text) && !Converts(text)
    // Falsy or short enough: the very value passed in, not a trimmed copy.
    ensures FitsWithin(text, max) ==> r == Some(text)
    // Too long: the first `max` words joined by single spaces ...
    ensures Converts(text) && !FitsWithin(text, max) ==>
      r == Some(Str(Join(Parts(ToJsString(text))[..max])))
    // ... which split back into exactly those words.
    ensures Converts(text) && !FitsWithin(text, max) && max >= 1 ==>
      Parts(r.value.s) == Parts(ToJsString(text))[..max]
    ensures r.Some? ==> Converts(r.value)
    ensures r.Some? && max == 0 ==> !Truthy(r.value)
    // Either way, the result has at most `max` words.
    ensures r.Some? && max >= 1 ==> |Parts(ToJsString(r.value))| <= max
  {
    if !Truthy(text) then
      FalsyHasOnePart(text);
      Some(text)
    else if !Converts(text) then None
    else
      var parts := Parts(ToJsString(text));
      if |parts| <= max then Some(text)
      else
        var r := Str(Join(parts[..max]));
        assert max >= 1 ==> Parts(r.s) == parts[..max] by {
          if max >= 1 {
            PartsAreWords(ToJsString(text));
            PartsOfJoinedPrefix(parts, max);
          }
        }
        Some(r)
  }

  /** Capping twice is capping once. */
  lemma CapWordsIdempotent(text: Value, max: nat)
    ensures var r := CapWords(text, max);
      r.Some? ==> CapWords(r.value, max) == r
  {
    var r := CapWords(text, max);
    if r.Some? && !FitsWithin(text, max) {
      if max >= 1 {
        assert |Parts(r.value.s)| == max;
        assert ToJsString(r.value) == r.value.s;
      }
      assert FitsWithin(r.value, max);
    }
  }

  /** For a string summary: short text comes back untouched, long text comes back
      as exactly `max` words. */
  lemma CapStringWords(text: string, max: nat)
    requires max >= 1
    ensures |Parts(text)| <= max ==> CapWords(Str(text), max) == Some(Str(text))
    ensures |Parts(text)| > max ==>
      var r := CapWords(Str(text), max);
      r.Some? && r.value.Str? && |Parts(r.value.s)| == max
  {
    var v := Str(text);
    assert Converts(v) && ToJsString(v) == text;
    if text == "" {
      assert Trim("") == "";
      assert FitsWithin(v, max);
    } else if |Parts(text)| > max {
      assert !FitsWithin(v, max);
      assert |Parts(text)[..max]| == max;
    }
  }
}

=== FILE: client_guards.dfy ===
/** The input checks the page makes before calling the server: `handleScan` and
    `handleAddProduct` refuse whitespace-only input with a message and send
    nothing; otherwise they send the text exactly as typed, untrimmed. */
module ClientGuards {
  import opened Wrappers
  import opened Text
  import opened Json
  import ScanResponse
  import ProductStore

  const EmptyPromptMessage: string := "Please enter a product or description."
  const EmptyProductMessage: string := "Enter a valid product name."

  /** What a click does: show a message and stop, or send a request carrying
      the given text. */
  datatype Submit = Blocked(message: string) | Request(payload: string)

  /** `handleScan`: `if (!prompt.trim())` shows the message, else posts `prompt`. */
  function HandleScan(prompt: string): (r: Submit)
    ensures r.Blocked? <==> Blank(prompt)
    ensures r.Blocked? ==> r.message == EmptyPromptMessage
    ensures r.Request? ==> r.payload == prompt
  {
    if Trim(prompt) == "" then Blocked(EmptyPromptMessage) else Request(prompt)
  }

  /** `handleAddProduct`: `if (!newProduct.trim())` shows the message, else
      posts `newProduct`. */
  function HandleAddProduct(newProduct: string): (r: Submit)
    ensures r.Blocked? <==> Blank(newProduct)
    ensures r.Blocked? ==> r.message == EmptyProductMessage
    ensures r.Request? ==> r.payload == newProduct
  {
    if Trim(newProduct) == "" then Blocked(EmptyProductMessage) else Request(newProduct)
  }

  /** A prompt the page sends always passes the server's own prompt check, so
      the server never answers it with "A valid prompt is required.". */
  lemma ScanRequestPassesServerGuard(prompt: string, upstream: string -> ScanResponse.Upstream,
                                     parse: ScanResponse.Parser, tag: string)
    requires HandleScan(prompt).Request?
    ensures ScanResponse.ScanRoute(Some(Str(prompt)), upstream, parse, tag)
      != ScanResponse.Error(400, ScanResponse.InvalidPromptError, None)
  {
    assert prompt != "";
  }

  /** A product name the page sends is never refused by the server as invalid;
      only a case-insensitive duplicate can still be refused. */
  lemma AddRequestPassesServerGuard(store: seq<string>, newProduct: string)
    requires HandleAddProduct(newProduct).Request?
    ensures var r := ProductStore.AddProduct(store, Some(Str(newProduct)));
      r.reply.Failure? ==> r.reply.error == ProductStore.DuplicateError
  {
    assert newProduct != "";
  }
}

=== FILE: json.dfy ===
/** The JSON values the server handles once `JSON.parse` has run, and the three
    JavaScript operations the handlers apply to them: truthiness (`if (x)`,
    `x || y`), optional property access (`x?.key`) and string conversion
    (`String(x)`, which `capWords` and `encodeURIComponent` perform). */
module Json {
  import opened Wrappers
  import opened Text

  /** A number is held as the text JavaScript's `String(n)` gives for it, so that
      string conversion and truthiness need no floating point. */
  datatype Value =
    | Null
    | Bool(b: bool)
    | Num(repr: string)
    | Str(s: string)
    | Arr(items: seq<Value>)
    | Obj(fields: map<string, Value>)

  /** JavaScript truthiness: `null`, `false`, `0` and `""` are falsy; arrays and
      objects are truthy even when empty. */
  predicate Truthy(v: Value) {
    match v
    case Null => false
    case Bool(b) => b
    case Num(repr) => repr != "0"
    case Str(s) => s != ""
    case Arr(_) => true
    case Obj(_) => true
  }

  /** A present and truthy optional value. */
  predicate PresentTruthy(o: Option<Value>) {
    o.Some? && Truthy(o.value)
  }

  /** `o?.key`: only an object with that own key yields a value; anything else,
      including `undefined`, yields `undefined`. */
  function Prop(o: Option<Value>, key: string): (r: Option<Value>)
    ensures r.Some? <==> o.Some? && o.value.Obj? && key in o.value.fields
    ensures r.Some? ==> r.value == o.value.fields[key]
  {
    match o
    case Some(Obj(f)) => if key in f then Some(f[key]) else None
    case _ => None
  }

  /** Whether `String(v)` returns instead of throwing a TypeError. An object
      converts through its inherited `toString` unless it has an own "toString"
      key: JSON makes that a non-callable data property, so conversion falls back
      on `valueOf`, which yields the object itself, and no primitive is found. An
      array converts when every element does. */
  predicate Converts(v: Value) {
    match v
    case Obj(f) => "toString" !in f
    case Arr(items) => forall i :: 0 <= i < |items| ==> Converts(items[i])
    case _ => true
  }

  /** `String(v)` for a value it does not throw on. An array joins its elements
      with "," and shows `null` elements as "". */
  function ToJsString(v: Value): (r: string)
    requires Converts(v)
    ensures v.Null? ==> r == "null"
    ensures v.Bool? ==> r == (if v.b then "true" else "false")
    ensures v.Num? ==> r == v.repr
    ensures v.Str? ==> r == v.s
    ensures v.Obj? ==> r == "[object Object]"
    ensures v.Arr? && v.items == [] ==> r == ""
    // A one-element array converts like its element, and to "" when that is `null`.
    ensures v.Arr? && |v.items| == 1 ==>
      r == (if v.items[0].Null? then "" else ToJsString(v.items[0]))
  {
    match v
    case Null => "null"
    case Bool(b) => if b then "true" else "false"
    case Num(repr) => repr
    case Str(s) => s
    case Arr(items) =>
      JoinWith(seq(|items|, i requires 0 <= i < |items| =>
        if items[i].Null? then "" else ToJsString(items[i])), ",")
    case Obj(_) => "[object Object]"
  }

  /** An array of two or more elements converts to its first element (shown as
      "" when `null`), a comma, and the rest of the array converted alike. */
  lemma ArrayString(items: seq<Value>)
    requires |items| >= 2 && Converts(Arr(items))
    ensures Converts(Arr(items[1..]))
    ensures ToJsString(Arr(items)) ==
      (if items[0].Null? then "" else ToJsString(items[0])) + "," + ToJsString(Arr(items[1..]))
  {
    var rest := items[1..];
    assert Converts(Arr(rest)) by {
      forall i | 0 <= i < |rest| ensures Converts(rest[i]) {
        assert rest[i] == items[i + 1];
      }
    }
    var all := seq(|items|, i requires 0 <= i < |items| =>
      if items[i].Null? then "" else ToJsString(items[i]));
    var tail := seq(|rest|, i requires 0 <= i < |rest| =>
      if rest[i].Null? then "" else ToJsString(rest[i]));
    assert all[1..] == tail;
  }

  /** The falsy JSON values are exactly `null`, `false`, `0` and `""` (`-0`
      prints as "0" too), and each of them converts. */
  lemma FalsyValues(v: Value)
    ensures !Truthy(v) <==> v in {Null, Bool(false), Num("0"), Str("")}
    ensures !Truthy(v) ==> Converts(v)
  {
  }

  /** A falsy value converts to a single word or to "", so its word list has
      exactly one piece. */
  lemma {:induction false} FalsyHasOnePart(v: Value)
    requires !Truthy(v)
    ensures Converts(v) && |Parts(ToJsString(v))| == 1
  {
    match v
    case Null =>
      assert IsWord("null");
      SingleWordParts("null");
    case Bool(_) =>
      assert IsWord("false");
      SingleWordParts("false");
    case Num(_) =>
      assert IsWord("0");
      SingleWordParts("0");
    case Str(_) =>
      assert Trim("") == "";
  }
}

=== FILE: product_store.dfy ===
/** The product-name list behind `/api/suggestions` and `/api/add-product`: an
    ordered list, searched case-insensitively by substring and extended only by
    appending a name no entry already matches case-insensitively. */
module ProductStore {
  import opened Wrappers
  import opened Text
  import opened Json

  const MaxSuggestions: nat := 5
  const InvalidNameError: string := "Invalid product name."
  const DuplicateError: string := "Product already exists."

  /** The list written out when no saved list exists yet. */
  const DefaultProducts: seq<string> := [
    "Miracle-Gro All Purpose Plant Food",
    "Scotts Turf Builder Weed & Feed",
    "Roundup Weed Killer",
    "Espoma Organic Plant Tone",
    "Neem Oil Insecticide",
    "Bonide Copper Fungicide",
    "Jobe’s Organics Fertilizer Spikes",
    "Sevin Garden Dust",
    "Compost",
    "Peat Moss",
    "Organic Potting Mix"
  ]

  /** Whether `item` is suggested for an already lower-cased query. */
  predicate Matches(item: string, query: string) {
    Contains(Lower(item), query)
  }

  /** `a` is `b` with some entries left out, order kept. */
  predicate IsSubsequence<T(==)>(a: seq<T>, b: seq<T>) {
    if a == [] then true
    else if b == [] then false
    else if a[0] == b[0] then IsSubsequence(a[1..], b[1..])
    else IsSubsequence(a, b[1..])
  }

  /** `productList.filter(item => item.toLowerCase().includes(query))`. */
  function Filter(store: seq<string>, query: string): (r: seq<string>)
    ensures IsSubsequence(r, store)
    ensures forall x :: x in r <==> x in store && Matches(x, query)
    // Every matching entry is kept as often as it occurs, duplicates included.
    ensures forall x :: multiset(r)[x] == if Matches(x, query) then multiset(store)[x] else 0
    decreases |store|
  {
    if store == [] then []
    else
      var rest := Filter(store[1..], query);
      assert store == [store[0]] + store[1..];
      if Matches(store[0], query) then [store[0]] + rest else rest
  }

  /** `GET /api/suggestions?q=...`: `q` is the query parameter, if present. */
  function Suggestions(store: seq<string>, q: Option<string>): (r: seq<string>)
    ensures |r| <= MaxSuggestions
    ensures q.None? || q.value == "" ==> r == []
    // Sound: every suggestion is a stored name containing the query.
    ensures q.Some? ==> forall x :: x in r ==> x in store && Matches(x, Lower(q.value))
    // Complete: fewer than five suggestions means every match was returned.
    ensures q.Some? && q.value != "" && |r| < MaxSuggestions ==>
      forall x :: x in store && Matches(x, Lower(q.value)) ==> x in r
    // Ordered: the first matches, in store order.
    ensures q.Some? && q.value != "" ==>
      var all := Filter(store, Lower(q.value));
      && |r| == (if |all| < MaxSuggestions then |all| else MaxSuggestions)
      && r == all[..|r|]
  {
    var query := if q.Some? then Lower(q.value) else "";
    if query == "" then []
    else
      var all := Filter(store, query);
      if |all| <= MaxSuggestions then all else all[..MaxSuggestions]
  }

  /** No two entries are equal once lower-cased. */
  predicate CaseUnique(store: seq<string>) {
    forall i, j :: 0 <= i < j < |store| ==> Lower(store[i]) != Lower(store[j])
  }

  predicate HasCaseInsensitive(store: seq<string>, name: string) {
    exists p | p in store :: Lower(p) == Lower(name)
  }

  /** The store after a request, and the request's outcome: the added name or the
      error message sent with status 400. */
  datatype StoreUpdate = StoreUpdate(products: seq<string>, reply: Result<string, string>)

  /** `POST /api/add-product` with body field `product`. */
  function AddProduct(store: seq<string>, product: Option<Value>): (r: StoreUpdate)
    // A missing, empty or non-string name is rejected.
    ensures !(product.Some? && product.value.Str? && product.value.s != "") ==>
      r == StoreUpdate(store, Failure(InvalidNameError))
    // A name some entry already matches case-insensitively is rejected.
    ensures (product.Some? && product.value.Str? && product.value.s != ""
             && HasCaseInsensitive(store, product.value.s)) ==>
      r == StoreUpdate(store, Failure(DuplicateError))
    // A valid name no entry matches case-insensitively is appended, exactly as sent ...
    ensures (product.Some? && product.value.Str? && product.value.s != ""
             && !HasCaseInsensitive(store, product.value.s)) ==>
      r == StoreUpdate(store + [product.value.s], Success(product.value.s))
    // ... and that is the only way to succeed.
    ensures r.reply.Success? ==>
      && product.Some? && product.value.Str? && product.value.s != ""
      && !HasCaseInsensitive(store, product.value.s)
      && r.reply.value == product.value.s
      && r.products == store + [product.value.s]
    ensures r.reply.Failure? ==> r.products == store
    // Case-insensitive uniqueness is kept.
    ensures CaseUnique(store) ==> CaseUnique(r.products)
  {
    if !(product.Some? && product.value.Str? && product.value.s != "") then
      StoreUpdate(store, Failure(InvalidNameError))
    else
      var name := product.value.s;
      if HasCaseInsensitive(store, name) then StoreUpdate(store, Failure(DuplicateError))
      else
        var products := store + [name];
        assert CaseUnique(store) ==> CaseUnique(products) by {
          if CaseUnique(store) {
            forall i, j | 0 <= i < j < |products|
              ensures Lower(products[i]) != Lower(products[j])
            {
              if j == |store| {
                assert products[i] in store;
              }
            }
          }
        }
        StoreUpdate(products, Success(name))
  }

  // ---------------------------------------------------------------------------
  // Lemmas

  /** The query's case does not matter. */
  lemma SuggestionsIgnoreQueryCase(store: seq<string>, q: string)
    ensures Suggestions(store, Some(q)) == Suggestions(store, Some(Lower(q)))
  {
    LowerIdempotent(q);
  }

  /** Adding a name twice: the second request is refused as a duplicate, whatever
      the case of either spelling. */
  lemma AddTwiceRejected(store: seq<string>, name: string, again: string)
    requires AddProduct(store, Some(Str(name))).reply.Success?
    requires again != "" && Lower(again) == Lower(name)
    ensures var once := AddProduct(store, Some(Str(name))).products;
      AddProduct(once, Some(Str(again))) == StoreUpdate(once, Failure(DuplicateError))
  {
    var once := AddProduct(store, Some(Str(name))).products;
    assert once[|store|] == name;
    assert name in once;
  }

  /** A successful add makes the new name the store's last entry, and the store
      only ever grows by that one entry. */
  lemma AddAppendsOne(store: seq<string>, product: Option<Value>)
    ensures var r := AddProduct(store, product);
      |r.products| == |store| + (if r.reply.Success? then 1 else 0)
      && r.products[..|store|] == store
  {
  }

  /** The seed list has no case-insensitive duplicates. */
  lemma DefaultProductsUnique()
    ensures CaseUnique(DefaultProducts)
  {
    var s := DefaultProducts;
    forall i, j | 0 <= i < j < |s| ensures Lower(s[i]) != Lower(s[j]) {
      assert Lower(s[i])[0..2] != Lower(s[j])[0..2] || Lower(s[i])[2] != Lower(s[j])[2];
    }
  }
}

=== FILE: scan_response.dfy ===
/** The `/api/scan` handler from the point the upstream completion arrives: the
    completion text is parsed or the request fails, `overall.summary` is capped at
    50 words, and `recommendation.affiliateLink` is derived locally from the
    keywords (or the alternative) and overwrites whatever the model supplied.
    `ScanRoute` adds the request guard in front and the upstream failure path. */
module ScanResponse {
  import opened Wrappers
  import opened Text
  import opened Json
  import opened WordCap
  import opened Affiliate
  import UriEncoding

  type Object = map<string, Value>

  /** `JSON.parse` restricted to object results; `None` is a parse failure. */
  type Parser = string -> Option<Object>

  const SummaryWordLimit: nat := 50
  const EmptyCompletion: string := "{}"
  const InvalidJsonError: string := "AI response was not valid JSON."
  const InvalidPromptError: string := "A valid prompt is required."
  const ProcessingError: string := "Failed to process request"

  /** The message Node.js gives the TypeError thrown when `String()` finds no
      primitive value for an object. */
  const ConversionMessage: string := "Cannot convert object to primitive value"

  /** `choices?.[0]?.message?.content || "{}"`: a missing or empty completion is
      read as an empty object. */
  function CompletionText(content: Option<string>): (raw: string)
    ensures content.Some? && content.value != "" ==> raw == content.value
    ensures content.None? || content.value == "" ==> raw == EmptyCompletion
  {
    match content
    case Some(c) => if c != "" then c else EmptyCompletion
    case None => EmptyCompletion
  }

  /** `result.overall?.summary`: present only when `overall` is an object holding
      a summary. */
  function Summary(result: Object): (r: Option<Value>)
    ensures r.Some? <==> "overall" in result && result["overall"].Obj? && "summary" in result["overall"].fields
    ensures r.Some? ==> r.value == result["overall"].fields["summary"]
  {
    Prop(Prop(Some(Obj(result)), "overall"), "summary")
  }

  function Recommendation(result: Object): Option<Value> {
    Prop(Some(Obj(result)), "recommendation")
  }

  /** The `overall` object with its summary capped and its other fields kept;
      `None` when capping throws. */
  function CapOverall(overall: Object): (r: Option<Object>)
    requires "summary" in overall
    ensures r.None? <==> CapWords(overall["summary"], SummaryWordLimit).None?
    ensures r.Some? ==>
      && r.value.Keys == overall.Keys
      && r.value["summary"] == CapWords(overall["summary"], SummaryWordLimit).value
      && forall k :: k in overall && k != "summary" ==> r.value[k] == overall[k]
  {
    match CapWords(overall["summary"], SummaryWordLimit)
    case None => None
    case Some(summary) => Some(overall["summary" := summary])
  }

  /** Overwriting a key an object already holds keeps its key set and every
      other field. */
  lemma UpdateExisting(m: Object, key: string, v: Value)
    requires key in m
    ensures m[key := v].Keys == m.Keys
    ensures forall k :: k in m && k != key ==> m[key := v][k] == m[k]
  {
  }

  /** Caps a truthy `overall.summary` in place and touches nothing else; `None`
      when `capWords` throws on it. */
  function CapSummary(result: Object): (r: Option<Object>)
    ensures r.None? <==> PresentTruthy(Summary(result)) && !Converts(Summary(result).value)
    ensures r.Some? ==>
      && r.value.Keys == result.Keys
      && forall k :: k in result && k != "overall" ==> r.value[k] == result[k]
    ensures !PresentTruthy(Summary(result)) ==> r == Some(result)
    ensures PresentTruthy(Summary(result)) && r.Some? ==>
      && r.value["overall"].Obj?
      && r.value["overall"].fields == CapOverall(result["overall"].fields).value
  {
    if PresentTruthy(Summary(result)) then
      match CapOverall(result["overall"].fields)
      case None => None
      case Some(overall) =>
        UpdateExisting(result, "overall", Obj(overall));
        Some(result["overall" := Obj(overall)])
    else Some(result)
  }

  /** `recommendation?.keywords || recommendation?.alternative || ""`, given
      `result.recommendation`. */
  function KeywordSource(rec: Option<Value>): (v: Value)
    ensures PresentTruthy(Prop(rec, "keywords")) ==> v == rec.value.fields["keywords"]
    ensures (!PresentTruthy(Prop(rec, "keywords")) && PresentTruthy(Prop(rec, "alternative"))) ==>
      v == rec.value.fields["alternative"]
    ensures (!PresentTruthy(Prop(rec, "keywords")) && !PresentTruthy(Prop(rec, "alternative"))) ==>
      v == Str("")
    ensures v == Str("") || Truthy(v)
  {
    var keywords := Prop(rec, "keywords");
    var alternative := Prop(rec, "alternative");
    if PresentTruthy(keywords) then keywords.value
    else if PresentTruthy(alternative) then alternative.value
    else Str("")
  }

  /** The link derived for a parsed result under the configured tag; `None` when
      `encodeURIComponent` throws converting the keyword source to a string. A
      derived link reads back as the keyword source's text and the tag, when one
      is configured. */
  function DerivedLink(result: Object, tag: string): (r: Option<string>)
    ensures r.None? <==> !Converts(KeywordSource(Recommendation(result)))
    ensures r.Some? ==> ReadLink(r.value) == Some((
      UriEncoding.Utf8(ToJsString(KeywordSource(Recommendation(result)))),
      if tag == "" then None else Some(UriEncoding.Utf8(tag))))
  {
    var source := KeywordSource(Recommendation(result));
    if Converts(source) then
      ReadSearchLink(ToJsString(source), tag);
      Some(SearchLink(ToJsString(source), tag))
    else None
  }

  /** `String()` throws on one of the two values the normaliser converts: a truthy
      summary or the link's keyword source. */
  predicate ConversionThrows(result: Object) {
    || (PresentTruthy(Summary(result)) && !Converts(Summary(result).value))
    || !Converts(KeywordSource(Recommendation(result)))
  }

  /** The fields `{...(result.recommendation || {})}` copies: an object's own
      fields, and none for a falsy value, a number or a boolean. */
  function SpreadFields(rec: Option<Value>): (f: Object)
    ensures rec.Some? && rec.value.Obj? ==> f == rec.value.fields
    // `|| {}`: a missing or falsy recommendation spreads no fields.
    ensures rec.None? || !Truthy(rec.value) ==> f == map[]
  {
    match rec
    case Some(Obj(f)) => f
    case _ => map[]
  }

  /** `result.recommendation = { ...result.recommendation, affiliateLink }`. */
  function AttachLink(result: Object, link: string): (r: Object)
    ensures r.Keys == result.Keys + {"recommendation"}
    ensures forall k :: k in result && k != "recommendation" ==> r[k] == result[k]
    ensures r["recommendation"].Obj?
    ensures var rec := r["recommendation"].fields;
      && rec.Keys == SpreadFields(Recommendation(result)).Keys + {"affiliateLink"}
      && rec["affiliateLink"] == Str(link)
      && forall k :: k in SpreadFields(Recommendation(result)) && k != "affiliateLink" ==>
           rec[k] == SpreadFields(Recommendation(result))[k]
  {
    var fields := SpreadFields(Recommendation(result));
    result["recommendation" := Obj(fields["affiliateLink" := Str(link)])]
  }

  /** Why the normaliser produced no result: the completion was not JSON, or
      `String()` threw on a value the model supplied. */
  datatype NormalizeError = NotJson | ConversionThrew

  /** The normaliser: parse, cap the summary, attach the derived link. A failure
      discards the whole result. */
  function Normalize(parse: Parser, content: Option<string>, tag: string)
    : (r: Result<Object, NormalizeError>)
    ensures r == Failure(NotJson) <==> parse(CompletionText(content)).None?
    ensures r == Failure(ConversionThrew) <==>
      parse(CompletionText(content)).Some? && ConversionThrows(parse(CompletionText(content)).value)
    ensures r.Success? ==>
      var parsed := parse(CompletionText(content)).value;
      && r.value.Keys == parsed.Keys + {"recommendation"}
      && (forall k :: k in parsed && k != "overall" && k != "recommendation" ==>
            r.value[k] == parsed[k])
      && ("overall" in parsed ==> r.value["overall"] == CapSummary(parsed).value["overall"])
      && r.value["recommendation"].Obj?
      && "affiliateLink" in r.value["recommendation"].fields
      && r.value["recommendation"].fields["affiliateLink"] == Str(DerivedLink(parsed, tag).value)
  {
    match parse(CompletionText(content))
    case None => Failure(NotJson)
    case Some(parsed) =>
      match CapSummary(parsed)
      case None => Failure(ConversionThrew)
      case Some(capped) =>
        CapSummaryKeepsLink(parsed, tag);
        match DerivedLink(capped, tag)
        case None => Failure(ConversionThrew)
        case Some(link) => Success(AttachLink(capped, link))
  }

  // ---------------------------------------------------------------------------
  // Properties of the normaliser

  /** Capping the summary does not disturb the recommendation, so the link is
      derived from the upstream keywords and alternative as they came. */
  lemma CapSummaryKeepsLink(result: Object, tag: string)
    requires CapSummary(result).Some?
    ensures DerivedLink(CapSummary(result).value, tag) == DerivedLink(result, tag)
    ensures Recommendation(CapSummary(result).value) == Recommendation(result)
  {
    var r := CapSummary(result).value;
    assert "recommendation" in r <==> "recommendation" in result;
    if "recommendation" in result {
      assert r["recommendation"] == result["recommendation"];
    }
    assert Recommendation(r) == Recommendation(result);
  }

  /** Every field of the upstream recommendation other than `affiliateLink`
      survives normalisation, and `affiliateLink` is always the derived one. */
  lemma NormalizeRecommendation(parse: Parser, content: Option<string>, tag: string)
    requires Normalize(parse, content, tag).Success?
    ensures var parsed := parse(CompletionText(content)).value;
      var out := Normalize(parse, content, tag).value["recommendation"].fields;
      && out.Keys == SpreadFields(Recommendation(parsed)).Keys + {"affiliateLink"}
      && out["affiliateLink"] == Str(DerivedLink(parsed, tag).value)
      && forall k :: k in SpreadFields(Recommendation(parsed)) && k != "affiliateLink" ==>
           out[k] == SpreadFields(Recommendation(parsed))[k]
  {
    CapSummaryKeepsLink(parse(CompletionText(content)).value, tag);
  }

  /** The summary of a normalised result is present exactly when the parsed one
      was; a truthy one is replaced by its 50-word cap, so it has at most 50 words
      and is its first 50 words when it had more; a summary already within the
      limit is returned exactly as sent. */
  lemma {:induction false} NormalizeSummary(parse: Parser, content: Option<string>, tag: string)
    requires Normalize(parse, content, tag).Success?
    ensures var parsed := parse(CompletionText(content)).value;
      var out := Normalize(parse, content, tag).value;
      && Prop(Some(Obj(out)), "overall").Some? == Prop(Some(Obj(parsed)), "overall").Some?
      && Summary(out).Some? == Summary(parsed).Some?
      && (PresentTruthy(Summary(parsed)) ==>
            Summary(out) == CapWords(Summary(parsed).value, SummaryWordLimit))
      && (Summary(out).Some? ==>
            Converts(Summary(out).value)
            && |Parts(ToJsString(Summary(out).value))| <= SummaryWordLimit)
      && (Summary(parsed).Some? && FitsWithin(Summary(parsed).value, SummaryWordLimit) ==>
            Summary(out) == Summary(parsed))
  {
    var parsed := parse(CompletionText(content)).value;
    var capped := CapSummary(parsed).value;
    var out := Normalize(parse, content, tag).value;
    assert out == AttachLink(capped, DerivedLink(capped, tag).value);
    assert Summary(out) == Summary(capped);
    if Summary(parsed).Some? && !PresentTruthy(Summary(parsed)) {
      FalsyHasOnePart(Summary(parsed).value);
    }
  }

  /** The model's own `affiliateLink` has no influence: two parsed results that
      agree on `keywords` and `alternative` get the same link, whatever else
      their recommendations hold. */
  lemma LinkIgnoresUpstream(a: Object, b: Object, tag: string)
    requires Prop(Recommendation(a), "keywords") == Prop(Recommendation(b), "keywords")
    requires Prop(Recommendation(a), "alternative") == Prop(Recommendation(b), "alternative")
    ensures DerivedLink(a, tag) == DerivedLink(b, tag)
  {
  }

  /** With no usable keywords or alternative the link searches for "". */
  lemma EmptyKeywordsLink(result: Object, tag: string)
    requires !PresentTruthy(Prop(Recommendation(result), "keywords"))
    requires !PresentTruthy(Prop(Recommendation(result), "alternative"))
    ensures DerivedLink(result, tag) == Some(SearchLink("", tag))
  {
  }

  /** A parser that reads "{}" as the empty object. */
  predicate ReadsEmptyObject(parse: Parser) {
    parse(EmptyCompletion) == Some(map[])
  }

  /** A missing or empty completion normalises to an object holding only
      `recommendation.affiliateLink`, built from "". */
  lemma EmptyCompletionResult(parse: Parser, content: Option<string>, tag: string)
    requires ReadsEmptyObject(parse)
    requires content.None? || content.value == ""
    ensures Normalize(parse, content, tag)
      == Success(map["recommendation" := Obj(map["affiliateLink" := Str(SearchLink("", tag))])])
  {
    var out := Normalize(parse, content, tag).value;
    assert out.Keys == {"recommendation"};
    assert out["recommendation"].fields.Keys == {"affiliateLink"};
  }

  // ---------------------------------------------------------------------------
  // The whole route

  /** What the upstream completion call produced: a completion whose first
      choice's message content may be missing, or a thrown error with its
      details: the upstream response's parsed error body when there is one,
      else the error's message text. */
  datatype Upstream = Completed(content: Option<string>) | Threw(details: Value)

  datatype ScanReply =
    | Ok(body: Object)
    | Error(status: nat, error: string, details: Option<Value>)

  /** `if (!prompt || typeof prompt !== "string")` lets the request through. */
  predicate ValidPrompt(prompt: Option<Value>) {
    prompt.Some? && prompt.value.Str? && prompt.value.s != ""
  }

  /** `POST /api/scan` with body field `prompt`; `upstream` stands for the
      completion call made with that prompt. */
  function ScanRoute(prompt: Option<Value>, upstream: string -> Upstream, parse: Parser, tag: string)
    : (r: ScanReply)
    ensures !ValidPrompt(prompt) ==> r == Error(400, InvalidPromptError, None)
    // A valid prompt is never refused with 400: it succeeds or fails with 500.
    ensures ValidPrompt(prompt) ==> r.Ok? || r.status == 500
    ensures ValidPrompt(prompt) && upstream(prompt.value.s).Threw? ==>
      r == Error(500, ProcessingError, Some(upstream(prompt.value.s).details))
    ensures ValidPrompt(prompt) && upstream(prompt.value.s).Completed? ==>
      var n := Normalize(parse, upstream(prompt.value.s).content, tag);
      && (n.Success? ==> r == Ok(n.value))
      && (n == Failure(NotJson) ==> r == Error(500, InvalidJsonError, None))
      && (n == Failure(ConversionThrew) ==> r == Error(500, ProcessingError, Some(Str(ConversionMessage))))
    ensures r.Ok? <==>
      && ValidPrompt(prompt)
      && upstream(prompt.value.s).Completed?
      && parse(CompletionText(upstream(prompt.value.s).content)).Some?
      && !ConversionThrows(parse(CompletionText(upstream(prompt.value.s).content)).value)
  {
    if !ValidPrompt(prompt) then
      Error(400, InvalidPromptError, None)
    else
      match upstream(prompt.value.s)
      case Threw(details) => Error(500, ProcessingError, Some(details))
      case Completed(content) =>
        match Normalize(parse, content, tag)
        case Failure(NotJson) => Error(500, InvalidJsonError, None)
        case Failure(ConversionThrew) => Error(500, ProcessingError, Some(Str(ConversionMessage)))
        case Success(body) => Ok(body)
  }

  /** A summary carrying its own "toString" key makes `capWords` throw, and the
      route answers 500 "Failed to process request" instead of a result. */
  lemma OwnToStringSummaryFails(prompt: string, upstream: string -> Upstream,
                                parse: Parser, tag: string, f: Object)
    requires prompt != ""
    requires upstream(prompt).Completed?
    requires parse(CompletionText(upstream(prompt).content)).Some?
    requires Summary(parse(CompletionText(upstream(prompt).content)).value) == Some(Obj(f))
    requires "toString" in f
    ensures ScanRoute(Some(Str(prompt)), upstream, parse, tag)
      == Error(500, ProcessingError, Some(Str(ConversionMessage)))
  {
    var parsed := parse(CompletionText(upstream(prompt).content)).value;
    assert ConversionThrows(parsed);
  }
}

=== FILE: score_tier.dfy ===
/** `getScoreColor` and `getScoreIcon`: a score out of `max` is shown green with
    "✅" from 75 percent, orange with "⚠️" from 50 percent, and red with "❌"
    otherwise. The percentage `(score / max) * 100` is compared exactly, by
    cross-multiplication, instead of in floating point. */
module ScoreTier {
  import opened Wrappers

  /** The `max` both helpers assume when none is passed. */
  const DefaultMax: int := 100

  const GoodPercent: int := 75
  const CautionPercent: int := 50

  datatype Style = Style(background: string, color: string)

  const Green: Style := Style("#4CAF50", "#fff")
  const Orange: Style := Style("#FF9800", "#fff")
  const Red: Style := Style("#F44336", "#fff")

  const GoodIcon: string := "✅"
  const CautionIcon: string := "⚠️"
  const PoorIcon: string := "❌"

  /** `(score / max) * 100 >= pct` for a numeric score, over the rationals. A
      negative `max` flips the comparison; `max == 0` divides to +Infinity for a
      positive score (which passes) and to NaN or -Infinity otherwise (which do
      not). A non-numeric score (`None`) divides to NaN and never passes. */
  predicate PercentAtLeast(score: Option<int>, max: int, pct: int)
    requires pct > 0
  {
    match score
    case None => false
    case Some(s) =>
      if max > 0 then s * 100 >= pct * max
      else if max < 0 then s * 100 <= pct * max
      else s > 0
  }

  /** `getScoreColor(score, max)`. */
  function ScoreColor(score: Option<int>, max: int): (r: Style)
    ensures r == Green || r == Orange || r == Red
  {
    if PercentAtLeast(score, max, GoodPercent) then Green
    else if PercentAtLeast(score, max, CautionPercent) then Orange
    else Red
  }

  /** `getScoreIcon(score, max)`. */
  function ScoreIcon(score: Option<int>, max: int): (r: string)
    ensures r == GoodIcon || r == CautionIcon || r == PoorIcon
  {
    if PercentAtLeast(score, max, GoodPercent) then GoodIcon
    else if PercentAtLeast(score, max, CautionPercent) then CautionIcon
    else PoorIcon
  }

  /** The three tiers, ordered from worst to best. */
  datatype Tier = Poor | Caution | Good

  function Rank(t: Tier): nat {
    match t
    case Poor => 0
    case Caution => 1
    case Good => 2
  }

  /** The tier of a score with a positive `max`, from the whole-number percentage
      rounded down: a reference stated independently of the helpers. */
  function TierOf(score: int, max: int): (t: Tier)
    requires max > 0
  {
    var percent := (score * 100) / max;
    if percent >= GoodPercent then Good
    else if percent >= CautionPercent then Caution
    else Poor
  }

  function StyleOf(t: Tier): Style {
    match t
    case Good => Green
    case Caution => Orange
    case Poor => Red
  }

  function IconOf(t: Tier): string {
    match t
    case Good => GoodIcon
    case Caution => CautionIcon
    case Poor => PoorIcon
  }

  /** For a whole number `x` and positive `m`, `x / m >= p` exactly when
      `x >= p * m`. */
  lemma FloorDivAtLeast(x: int, m: int, p: int)
    requires m > 0
    ensures x / m >= p <==> x >= p * m
  {
    var q := x / m;
    assert x == m * q + x % m && 0 <= x % m < m;
    if q >= p {
      assert m * q >= m * p;
    } else {
      assert q <= p - 1;
      assert m * q <= m * (p - 1);
    }
  }

  /** For a positive `max`, both helpers agree with the rounded-down percentage
      and so select the same tier. */
  lemma HelpersMatchTier(score: int, max: int)
    requires max > 0
    ensures ScoreColor(Some(score), max) == StyleOf(TierOf(score, max))
    ensures ScoreIcon(Some(score), max) == IconOf(TierOf(score, max))
  {
    FloorDivAtLeast(score * 100, max, GoodPercent);
    FloorDivAtLeast(score * 100, max, CautionPercent);
  }

  /** Colour and icon always pick the same tier, for every `(score, max)`,
      numeric or not. */
  lemma ColorAndIconAgree(score: Option<int>, max: int)
    ensures ScoreColor(score, max) == Green <==> ScoreIcon(score, max) == GoodIcon
    ensures ScoreColor(score, max) == Orange <==> ScoreIcon(score, max) == CautionIcon
    ensures ScoreColor(score, max) == Red <==> ScoreIcon(score, max) == PoorIcon
  {
  }

  /** A non-numeric score is always shown red with "❌". */
  lemma NonNumericIsPoor(max: int)
    ensures ScoreColor(None, max) == Red && ScoreIcon(None, max) == PoorIcon
  {
  }

  /** A higher score never gets a worse tier. */
  lemma {:induction false} TierMonotone(s1: int, s2: int, max: int)
    requires max > 0 && s1 <= s2
    ensures Rank(TierOf(s1, max)) <= Rank(TierOf(s2, max))
  {
    FloorDivAtLeast(s1 * 100, max, GoodPercent);
    FloorDivAtLeast(s1 * 100, max, CautionPercent);
    FloorDivAtLeast(s2 * 100, max, GoodPercent);
    FloorDivAtLeast(s2 * 100, max, CautionPercent);
  }

  /** The five-point safety and effectiveness scores: 4 and 5 are good, 3 is
      caution, and 1 and 2 are poor. */
  lemma FivePointTiers()
    ensures TierOf(5, 5) == Good && TierOf(4, 5) == Good
    ensures TierOf(3, 5) == Caution
    ensures TierOf(2, 5) == Poor && TierOf(1, 5) == Poor
  {
  }

  /** The default `max` of 100 makes the thresholds the scores 75 and 50. */
  lemma DefaultMaxThresholds(score: int)
    ensures ScoreColor(Some(score), DefaultMax) == Green <==> score >= 75
    ensures ScoreColor(Some(score), DefaultMax) == Orange <==> 50 <= score < 75
    ensures ScoreColor(Some(score), DefaultMax) == Red <==> score < 50
  {
  }
}

=== FILE: text.dfy ===
/** String primitives of the JavaScript runtime that the server and the client rely
    on: the whitespace class shared by `String.prototype.trim` and the regular
    expression `\s`, trimming, splitting on runs of whitespace, joining with a
    separator, ASCII lower-casing and substring search. */
module Text {

  /** ECMAScript WhiteSpace and LineTerminator code points: exactly what `\s`
      matches and what `trim` removes. */
  predicate IsSpace(c: char) {
    var n := c as int;
    || (9 <= n <= 13)
    || n == 0x20 || n == 0xA0 || n == 0x1680
    || (0x2000 <= n <= 0x200A)
    || n == 0x2028 || n == 0x2029 || n == 0x202F || n == 0x205F
    || n == 0x3000 || n == 0xFEFF
  }

  predicate NoSpace(s: string) {
    forall i :: 0 <= i < |s| ==> !IsSpace(s[i])
  }

  /** A word: a non-empty run of non-whitespace characters. */
  predicate IsWord(w: string) {
    |w| > 0 && NoSpace(w)
  }

  predicate AllWords(ws: seq<string>) {
    forall i :: 0 <= i < |ws| ==> IsWord(ws[i])
  }

  /** Neither end of `s` is whitespace (vacuously true of ""). */
  predicate Trimmed(s: string) {
    s == [] || (!IsSpace(s[0]) && !IsSpace(s[|s| - 1]))
  }

  /** `trimStart`: drops the leading whitespace. */
  function TrimStart(s: string): (r: string)
    ensures |r| <= |s| && r == s[|s| - |r|..]
    ensures r == [] || !IsSpace(r[0])
    ensures s != [] && IsSpace(s[0]) ==> |r| < |s|
    ensures forall i :: 0 <= i < |s| - |r| ==> IsSpace(s[i])
  {
    if s != [] && IsSpace(s[0]) then TrimStart(s[1..]) else s
  }

  /** `trimEnd`: drops the trailing whitespace. */
  function TrimEnd(s: string): (r: string)
    ensures |r| <= |s| && r == s[..|r|]
    ensures r == [] || !IsSpace(r[|r| - 1])
    ensures forall i :: |r| <= i < |s| ==> IsSpace(s[i])
  {
    if s != [] && IsSpace(s[|s| - 1]) then TrimEnd(s[..|s| - 1]) else s
  }

  /** Nothing but whitespace (vacuously true of ""). */
  predicate Blank(s: string) {
    forall i :: 0 <= i < |s| ==> IsSpace(s[i])
  }

  /** `String.prototype.trim`. */
  function Trim(s: string): (r: string)
    ensures Trimmed(r)
    ensures Trimmed(s) ==> r == s
    ensures r == [] <==> Blank(s)
    // Only a blank prefix and a blank suffix are removed.
    ensures exists i, j :: 0 <= i <= j <= |s| && r == s[i..j] && Blank(s[..i]) && Blank(s[j..])
  {
    var t := TrimStart(s);
    var r := TrimEnd(t);
    InnerSlice(s, t, r);
    assert r == [] ==> t == [];
    r
  }

  /** A blank prefix of `s` dropped to give `t`, then a blank suffix of `t`
      dropped to give `r`: `r` is a slice of `s` between blank ends. */
  lemma InnerSlice(s: string, t: string, r: string)
    requires |t| <= |s| && t == s[|s| - |t|..] && Blank(s[..|s| - |t|])
    requires |r| <= |t| && r == t[..|r|] && Blank(t[|r|..])
    ensures exists i, j :: 0 <= i <= j <= |s| && r == s[i..j] && Blank(s[..i]) && Blank(s[j..])
  {
    var i := |s| - |t|;
    var j := i + |r|;
    assert r == s[i..j];
    assert s[j..] == t[|r|..];
  }

  /** Index of the first whitespace character of `s`, or `|s|` if there is none. */
  function WordEnd(s: string): (k: nat)
    ensures k <= |s|
    ensures NoSpace(s[..k])
    ensures k < |s| ==> IsSpace(s[k])
  {
    if s == [] || IsSpace(s[0]) then 0 else 1 + WordEnd(s[1..])
  }

  /** `s.split(/\s+/)`: the pieces between maximal runs of whitespace. A leading
      or trailing run yields an empty first or last piece, and "" yields [""]. */
  function SplitWs(s: string): (ps: seq<string>)
    ensures |ps| >= 1
    decreases |s|
  {
    var k := WordEnd(s);
    if k == |s| then [s] else [s[..k]] + SplitWs(TrimStart(s[k..]))
  }

  /** The word list `capWords` computes: `String(text).trim().split(/\s+/)`. */
  function Parts(s: string): seq<string> {
    SplitWs(Trim(s))
  }

  /** `Array.prototype.join(sep)` over strings. */
  function JoinWith(ws: seq<string>, sep: string): string {
    if |ws| == 0 then ""
    else if |ws| == 1 then ws[0]
    else ws[0] + sep + JoinWith(ws[1..], sep)
  }

  function Join(ws: seq<string>): string {
    JoinWith(ws, " ")
  }

  /** The summed length of a list of texts. */
  function TotalLength(ws: seq<string>): nat {
    if ws == [] then 0 else |ws[0]| + TotalLength(ws[1..])
  }

  /** Appending one more text to a non-empty list appends a separator and that
      text to the joined result. */
  lemma {:induction false} JoinWithSnoc(ws: seq<string>, w: string, sep: string)
    requires |ws| >= 1
    ensures JoinWith(ws + [w], sep) == JoinWith(ws, sep) + sep + w
    decreases |ws|
  {
    if |ws| > 1 {
      assert (ws + [w])[1..] == ws[1..] + [w];
      JoinWithSnoc(ws[1..], w, sep);
    } else {
      assert ws + [w] == [ws[0], w];
      assert [ws[0], w][1..] == [w];
    }
  }

  /** A joined list is as long as its texts together plus one separator
      between each neighbouring pair. */
  lemma {:induction false} JoinWithLength(ws: seq<string>, sep: string)
    requires |ws| >= 1
    ensures |JoinWith(ws, sep)| == TotalLength(ws) + (|ws| - 1) * |sep|
    decreases |ws|
  {
    if |ws| > 1 {
      JoinWithLength(ws[1..], sep);
    } else {
      assert ws[1..] == [];
    }
  }

  /** ASCII `toLowerCase`. */
  function LowerChar(c: char): char {
    if 'A' <= c <= 'Z' then (c as int + 32) as char else c
  }

  function Lower(s: string): (r: string)
    ensures |r| == |s|
    // No ASCII capital is left, and every other character is kept.
    ensures forall i :: 0 <= i < |r| ==> !('A' <= r[i] <= 'Z')
    ensures forall i :: 0 <= i < |s| && !('A' <= s[i] <= 'Z') ==> r[i] == s[i]
    ensures forall i :: 0 <= i < |s| && 'A' <= s[i] <= 'Z' ==> r[i] as int == s[i] as int + 32
  {
    seq(|s|, i requires 0 <= i < |s| => LowerChar(s[i]))
  }

  predicate IsPrefix(p: string, s: string) {
    |p| <= |s| && s[..|p|] == p
  }

  /** `String.prototype.includes`. */
  predicate Contains(hay: string, needle: string) {
    IsPrefix(needle, hay) || (hay != [] && Contains(hay[1..], needle))
  }

  // ---------------------------------------------------------------------------
  // Lemmas

  /** `needle` occurs in `hay` starting at offset `i`. */
  predicate OccursAt(hay: string, needle: string, i: int) {
    0 <= i && i + |needle| <= |hay| && hay[i..i + |needle|] == needle
  }

  /** `includes` holds exactly when the needle occurs at some offset. */
  lemma {:induction false} ContainsAt(hay: string, needle: string)
    ensures Contains(hay, needle) <==> exists i :: OccursAt(hay, needle, i)
  {
    if IsPrefix(needle, hay) {
      assert OccursAt(hay, needle, 0);
    } else if hay == [] {
      assert forall i :: OccursAt(hay, needle, i) ==> i == 0;
    } else {
      ContainsAt(hay[1..], needle);
      if exists i :: OccursAt(hay[1..], needle, i) {
        var i :| OccursAt(hay[1..], needle, i);
        assert hay[i + 1..i + 1 + |needle|] == hay[1..][i..i + |needle|];
        assert OccursAt(hay, needle, i + 1);
      }
      if exists i :: OccursAt(hay, needle, i) {
        var i :| OccursAt(hay, needle, i);
        assert i != 0;
        assert hay[1..][i - 1..i - 1 + |needle|] == hay[i..i + |needle|];
        assert OccursAt(hay[1..], needle, i - 1);
      }
    }
  }

  lemma LowerIdempotent(s: string)
    ensures Lower(Lower(s)) == Lower(s)
  {
  }

  /** The first word of `w + t` is `w` when `w` has no whitespace and `t` is
      empty or starts with whitespace. */
  lemma {:induction false} WordEndOfPrefix(w: string, t: string)
    requires NoSpace(w)
    requires t == [] || IsSpace(t[0])
    ensures WordEnd(w + t) == |w|
  {
    if w != [] {
      assert (w + t)[1..] == w[1..] + t;
      WordEndOfPrefix(w[1..], t);
    }
  }

  /** A joined word list starts with its first word's first character and ends
      with its last word's last character. */
  lemma {:induction false} JoinEnds(ws: seq<string>)
    requires |ws| >= 1 && AllWords(ws)
    ensures var s := Join(ws);
      |s| >= 1 && s[0] == ws[0][0] && s[|s| - 1] == ws[|ws| - 1][|ws[|ws| - 1]| - 1]
  {
    if |ws| > 1 {
      JoinEnds(ws[1..]);
    }
  }

  lemma JoinTrimmed(ws: seq<string>)
    requires |ws| >= 1 && AllWords(ws)
    ensures Trimmed(Join(ws)) && Join(ws) != []
  {
    JoinEnds(ws);
  }

  /** Splitting `w + " " + rest` peels off the word `w`. */
  lemma SplitCons(w: string, rest: string)
    requires IsWord(w)
    requires rest != [] && !IsSpace(rest[0])
    ensures SplitWs(w + " " + rest) == [w] + SplitWs(rest)
  {
    var s := w + " " + rest;
    assert s == w + (" " + rest);
    WordEndOfPrefix(w, " " + rest);
    assert s[..|w|] == w;
    assert s[|w|..] == " " + rest;
    assert (" " + rest)[1..] == rest;
  }

  /** Splitting a space-joined list of words gives the words back. */
  lemma {:induction false} SplitJoin(ws: seq<string>)
    requires |ws| >= 1 && AllWords(ws)
    ensures SplitWs(Join(ws)) == ws
  {
    if |ws| == 1 {
      SplitOneWord(ws[0]);
      assert ws == [ws[0]];
    } else {
      var rest := ws[1..];
      assert IsWord(ws[0]);
      assert AllWords(rest) by {
        forall i | 0 <= i < |rest| ensures IsWord(rest[i]) {
          assert rest[i] == ws[i + 1];
        }
      }
      assert Join(ws) == ws[0] + " " + Join(rest);
      JoinEnds(rest);
      SplitCons(ws[0], Join(rest));
      SplitJoin(rest);
      assert ws == [ws[0]] + rest;
    }
  }

  /** A single word splits to itself. */
  lemma SplitOneWord(w: string)
    requires IsWord(w)
    ensures SplitWs(w) == [w]
  {
    assert w == w + [];
    WordEndOfPrefix(w, []);
  }

  /** Every piece of a non-empty string with non-blank ends is a word. */
  lemma {:induction false} SplitWords(s: string)
    requires s != [] && Trimmed(s)
    ensures AllWords(SplitWs(s))
    decreases |s|
  {
    var k := WordEnd(s);
    if k < |s| {
      var t := TrimStart(s[k..]);
      assert s[k..][|s[k..]| - 1] == s[|s| - 1];
      assert t != [] && t[|t| - 1] == s[|s| - 1];
      SplitWords(t);
    }
  }

  /** The pieces of a trimmed non-empty text are all words. */
  lemma PartsAreWords(s: string)
    requires Trim(s) != []
    ensures AllWords(Parts(s))
  {
    SplitWords(Trim(s));
  }

  /** A non-empty string without whitespace is one word. */
  lemma SingleWordParts(w: string)
    requires IsWord(w)
    ensures Parts(w) == [w]
  {
    assert Trimmed(w);
    SplitOneWord(w);
  }

  /** The pieces of `split(/\s+/)`: none holds whitespace, only the first and
      the last can be empty, the first is empty exactly when the text is empty or
      starts with whitespace, the text splits at all exactly when it holds
      whitespace, and the text is exactly its pieces separated by non-empty
      whitespace runs. */
  lemma SplitPieces(s: string)
    ensures var ps := SplitWs(s);
      && (forall i :: 0 <= i < |ps| ==> NoSpace(ps[i]))
      && (forall i :: 0 < i < |ps| - 1 ==> ps[i] != [])
      && (ps[0] == [] <==> s == [] || IsSpace(s[0]))
      && (|ps| == 1 <==> NoSpace(s))
      && exists gaps :: SeparatedBy(s, ps, gaps)
  {
    SplitShape(s);
    SplitGaps(s);
  }

  lemma {:induction false} SplitShape(s: string)
    ensures var ps := SplitWs(s);
      && (forall i :: 0 <= i < |ps| ==> NoSpace(ps[i]))
      && (forall i :: 0 < i < |ps| - 1 ==> ps[i] != [])
      && (ps[0] == [] <==> s == [] || IsSpace(s[0]))
      && (|ps| == 1 <==> NoSpace(s))
    decreases |s|
  {
    var k := WordEnd(s);
    if k < |s| {
      var t := TrimStart(s[k..]);
      SplitShape(t);
      assert SplitWs(s) == [s[..k]] + SplitWs(t);
      assert !NoSpace(s) by {
        assert IsSpace(s[k]);
      }
    }
  }

  /** `ps[0] + gaps[0] + ps[1] + ... + gaps[n - 2] + ps[n - 1]`. */
  function Interleave(ps: seq<string>, gaps: seq<string>): string
    requires |gaps| + 1 == |ps|
    decreases |gaps|
  {
    if gaps == [] then ps[0] else ps[0] + gaps[0] + Interleave(ps[1..], gaps[1..])
  }

  /** `s` is the pieces `ps` with the non-empty whitespace runs `gaps` between them. */
  predicate SeparatedBy(s: string, ps: seq<string>, gaps: seq<string>) {
    && |gaps| + 1 == |ps|
    && (forall i :: 0 <= i < |gaps| ==> gaps[i] != [] && Blank(gaps[i]))
    && s == Interleave(ps, gaps)
  }

  /** The whitespace runs `split(/\s+/)` removes, in order. */
  function Gaps(s: string): seq<string>
    decreases |s|
  {
    var k := WordEnd(s);
    if k == |s| then [] else [LeadingBlank(s[k..])] + Gaps(TrimStart(s[k..]))
  }

  /** The whitespace `trimStart` drops from the front of `u`. */
  function LeadingBlank(u: string): string {
    u[..|u| - |TrimStart(u)|]
  }

  /** Splitting on `/\s+/` and the runs it removes rebuild the text. */
  lemma {:induction false} SplitGaps(s: string)
    ensures SeparatedBy(s, SplitWs(s), Gaps(s))
    decreases |s|
  {
    var k := WordEnd(s);
    if k == |s| {
      assert SplitWs(s) == [s] && Gaps(s) == [];
      assert Interleave([s], []) == s;
    } else {
      var u := s[k..];
      var t := TrimStart(u);
      var g := LeadingBlank(u);
      SplitStep(s);
      GapsStep(s);
      SplitGaps(t);
      LeadingBlankSplits(u);
      SeparatedStep(s, k, g, t, SplitWs(t), Gaps(t));
    }
  }

  /** One step of the split of a text that holds whitespace: its first word,
      then the split of what follows the run after it. */
  lemma SplitStep(s: string)
    requires WordEnd(s) < |s|
    ensures SplitWs(s) == [s[..WordEnd(s)]] + SplitWs(TrimStart(s[WordEnd(s)..]))
  {
  }

  /** One step of the gaps of a text that holds whitespace: the run after its
      first word, then the gaps of what follows. */
  lemma GapsStep(s: string)
    requires WordEnd(s) < |s|
    ensures Gaps(s) == [LeadingBlank(s[WordEnd(s)..])] + Gaps(TrimStart(s[WordEnd(s)..]))
  {
  }

  /** A text starting with whitespace is its non-empty leading run followed by
      the rest. */
  lemma LeadingBlankSplits(u: string)
    requires u != [] && IsSpace(u[0])
    ensures LeadingBlank(u) != [] && Blank(LeadingBlank(u))
    ensures u == LeadingBlank(u) + TrimStart(u)
  {
    GapIsBlank(u, TrimStart(u));
  }

  /** The run `trimStart` drops from a text that starts with whitespace is
      non-empty and blank, and it is all that was dropped. */
  lemma GapIsBlank(u: string, t: string)
    requires |t| < |u| && t == u[|u| - |t|..]
    requires forall i :: 0 <= i < |u| - |t| ==> IsSpace(u[i])
    ensures u[..|u| - |t|] != [] && Blank(u[..|u| - |t|])
    ensures u == u[..|u| - |t|] + t
  {
    var j := |u| - |t|;
    var g := u[..j];
    forall i | 0 <= i < |g| ensures IsSpace(g[i]) {
      assert g[i] == u[i];
    }
    assert t == u[j..];
  }

  /** A text whose tail after `k` is a gap followed by a separated text is
      separated too, with its first `k` characters as the first piece. */
  lemma SeparatedStep(s: string, k: nat, g: string, t: string, ps: seq<string>, gaps: seq<string>)
    requires k <= |s| && s[k..] == g + t
    requires g != [] && Blank(g) && SeparatedBy(t, ps, gaps)
    ensures SeparatedBy(s, [s[..k]] + ps, [g] + gaps)
  {
    assert s == s[..k] + g + t by {
      assert s == s[..k] + s[k..];
    }
    SeparatedCons(s[..k], g, t, ps, gaps);
  }

  /** Prepending a piece and a gap keeps a separation valid. */
  lemma SeparatedCons(p: string, g: string, t: string, ps: seq<string>, gaps: seq<string>)
    requires g != [] && Blank(g) && SeparatedBy(t, ps, gaps)
    ensures SeparatedBy(p + g + t, [p] + ps, [g] + gaps)
  {
    assert ([p] + ps)[1..] == ps && ([g] + gaps)[1..] == gaps;
    forall i | 0 <= i < |[g] + gaps| ensures ([g] + gaps)[i] != [] && Blank(([g] + gaps)[i]) {
      if i > 0 {
        assert ([g] + gaps)[i] == gaps[i - 1];
      }
    }
  }

  /** Joining the first `n` words of a word list and splitting again yields
      exactly those `n` words. */
  lemma PartsOfJoinedPrefix(ws: seq<string>, n: nat)
    requires 1 <= n <= |ws| && AllWords(ws)
    ensures Parts(Join(ws[..n])) == ws[..n]
  {
    JoinTrimmed(ws[..n]);
    SplitJoin(ws[..n]);
  }
}

=== FILE: uri_encoding.dfy ===
/** `encodeURIComponent` on well-formed text (Unicode scalar values): a character from the
    unreserved set A-Z a-z 0-9 - _ . ! ~ * ' ( ) is copied, and every other
    character is written as its UTF-8 bytes, each percent-encoded as "%HH" with
    upper-case hexadecimal digits (section 2.1 of RFC 3986). `Decode` is the
    percent-decoding reference the encoder is proved against. */
module UriEncoding {
  import opened Wrappers

  type Byte = b: int | 0 <= b < 256

  predicate Unreserved(c: char) {
    || ('A' <= c <= 'Z') || ('a' <= c <= 'z') || ('0' <= c <= '9')
    || c == '-' || c == '_' || c == '.' || c == '!' || c == '~'
    || c == '*' || c == '\'' || c == '(' || c == ')'
  }

  /** Upper-case hexadecimal digit for a value below 16. */
  function HexDigit(n: nat): (c: char)
    requires n < 16
    ensures Unreserved(c)
  {
    if n < 10 then ('0' as int + n) as char else ('A' as int + n - 10) as char
  }

  predicate IsHexDigit(c: char) {
    ('0' <= c <= '9') || ('A' <= c <= 'F') || ('a' <= c <= 'f')
  }

  function HexValue(c: char): (n: nat)
    requires IsHexDigit(c)
    ensures n < 16
  {
    if '0' <= c <= '9' then c as int - '0' as int
    else if 'A' <= c <= 'F' then c as int - 'A' as int + 10
    else c as int - 'a' as int + 10
  }

  /** "%HH" for one byte. */
  function PercentByte(b: Byte): string {
    ['%', HexDigit(b / 16), HexDigit(b % 16)]
  }

  function PercentBytes(bs: seq<Byte>): string {
    if bs == [] then "" else PercentByte(bs[0]) + PercentBytes(bs[1..])
  }

  /** The UTF-8 encoding of one code point (RFC 3629 section 3). */
  function Utf8Char(c: char): (bs: seq<Byte>)
    ensures 1 <= |bs| <= 4
    ensures (c as int < 0x80) <==> |bs| == 1
  {
    var n := c as int;
    if n < 0x80 then [n]
    else if n < 0x800 then [0xC0 + n / 64, 0x80 + n % 64]
    else if n < 0x1_0000 then [0xE0 + n / 4096, 0x80 + (n / 64) % 64, 0x80 + n % 64]
    else [0xF0 + n / 262144, 0x80 + (n / 4096) % 64, 0x80 + (n / 64) % 64, 0x80 + n % 64]
  }

  function Utf8(s: string): seq<Byte> {
    if s == [] then [] else Utf8Char(s[0]) + Utf8(s[1..])
  }

  function EncodeChar(c: char): string {
    if Unreserved(c) then [c] else PercentBytes(Utf8Char(c))
  }

  /** `encodeURIComponent`. */
  function Encode(s: string): (r: string)
    // Only unreserved characters and '%' appear, so never '&', '=', '?' or '#'.
    ensures forall i :: 0 <= i < |r| ==> Unreserved(r[i]) || r[i] == '%'
    // Unreserved text is left exactly as it is.
    ensures (forall i :: 0 <= i < |s| ==> Unreserved(s[i])) ==> r == s
    ensures |s| <= |r|
  {
    if s == [] then ""
    else
      var head := EncodeChar(s[0]);
      assert forall i :: 0 <= i < |head| ==> Unreserved(head[i]) || head[i] == '%' by {
        if !Unreserved(s[0]) {
          PercentBytesAlphabet(Utf8Char(s[0]));
        }
      }
      assert s == [s[0]] + s[1..];
      head + Encode(s[1..])
  }

  lemma {:induction false} PercentBytesAlphabet(bs: seq<Byte>)
    ensures var r := PercentBytes(bs);
      |r| == 3 * |bs| && forall i :: 0 <= i < |r| ==> Unreserved(r[i]) || r[i] == '%'
  {
    if bs != [] {
      PercentBytesAlphabet(bs[1..]);
    }
  }

  /** Percent-decoding to bytes, defined on the encoder's alphabet: "%HH" is one
      byte and an unreserved character is its ASCII byte; anything else fails. */
  function Decode(t: string): Option<seq<Byte>>
    decreases |t|
  {
    if t == [] then Some([])
    else if t[0] == '%' then
      if |t| >= 3 && IsHexDigit(t[1]) && IsHexDigit(t[2]) then
        Prepend([HexValue(t[1]) * 16 + HexValue(t[2])], Decode(t[3..]))
      else None
    else if Unreserved(t[0]) then Prepend([t[0] as int], Decode(t[1..]))
    else None
  }

  function Prepend(bs: seq<Byte>, o: Option<seq<Byte>>): Option<seq<Byte>> {
    match o
    case None => None
    case Some(rest) => Some(bs + rest)
  }

  lemma HexRoundTrip(n: nat)
    requires n < 16
    ensures IsHexDigit(HexDigit(n)) && HexValue(HexDigit(n)) == n
  {
  }

  lemma DecodePercentByte(b: Byte, t: string)
    ensures Decode(PercentByte(b) + t) == Prepend([b], Decode(t))
  {
    var s := PercentByte(b) + t;
    HexRoundTrip(b / 16);
    HexRoundTrip(b % 16);
    assert s[0] == '%' && s[1] == HexDigit(b / 16) && s[2] == HexDigit(b % 16);
    assert s[3..] == t;
  }

  lemma {:induction false} DecodePercentBytes(bs: seq<Byte>, t: string)
    ensures Decode(PercentBytes(bs) + t) == Prepend(bs, Decode(t))
    decreases |bs|, 1
  {
    if bs == [] {
      assert PercentBytes(bs) + t == t;
      PrependTwice([], [], Decode(t));
    } else {
      DecodePercentBytesCons(bs, t);
    }
  }

  lemma {:induction false} DecodePercentBytesCons(bs: seq<Byte>, t: string)
    requires bs != []
    ensures Decode(PercentBytes(bs) + t) == Prepend(bs, Decode(t))
    decreases |bs|, 0
  {
    var tail := PercentBytes(bs[1..]) + t;
    assert PercentBytes(bs) + t == PercentByte(bs[0]) + tail;
    DecodePercentByte(bs[0], tail);
    DecodePercentBytes(bs[1..], t);
    PrependTwice([bs[0]], bs[1..], Decode(t));
    assert [bs[0]] + bs[1..] == bs;
  }

  lemma PrependTwice(a: seq<Byte>, b: seq<Byte>, o: Option<seq<Byte>>)
    ensures Prepend(a, Prepend(b, o)) == Prepend(a + b, o)
    ensures Prepend([], o) == o
  {
    if o.Some? {
      assert a + (b + o.value) == (a + b) + o.value;
      assert [] + o.value == o.value;
    }
  }

  lemma DecodeEncodeChar(c: char, t: string)
    ensures Decode(EncodeChar(c) + t) == Prepend(Utf8Char(c), Decode(t))
  {
    if Unreserved(c) {
      assert ([c] + t)[1..] == t;
    } else {
      DecodePercentBytes(Utf8Char(c), t);
    }
  }

  /** Percent-decoding the encoder's output recovers the UTF-8 bytes of the
      original text. */
  lemma {:induction false} DecodeEncode(s: string)
    ensures Decode(Encode(s)) == Some(Utf8(s))
  {
    if s != [] {
      DecodeEncodeChar(s[0], Encode(s[1..]));
      DecodeEncode(s[1..]);
      assert Encode(s) == EncodeChar(s[0]) + Encode(s[1..]);
    }
  }

  // ---------------------------------------------------------------------------
  // UTF-8 decoding, to take the round trip back to text

  predicate IsContinuation(b: Byte) {
    0x80 <= b < 0xC0
  }

  /** A code point that is a Unicode scalar value, so a `char`. */
  predicate IsScalar(n: int) {
    (0 <= n < 0xD800) || (0xE000 <= n < 0x11_0000)
  }

  /** Decodes the first character of `bs` and says how many bytes it used. */
  function DecodeOne(bs: seq<Byte>): (r: Option<(char, nat)>)
    requires bs != []
    ensures r.Some? ==> 1 <= r.value.1 <= |bs|
  {
    var b0: int := bs[0];
    if b0 < 0x80 then Some((b0 as char, 1))
    else if b0 < 0xC0 then None
    else if b0 < 0xE0 then
      if |bs| >= 2 && IsContinuation(bs[1]) then
        var n: int := (b0 - 0xC0) * 64 + (bs[1] as int - 0x80);
        Some((n as char, 2))
      else None
    else if b0 < 0xF0 then
      if |bs| >= 3 && IsContinuation(bs[1]) && IsContinuation(bs[2]) then
        var n: int := (b0 - 0xE0) * 4096 + (bs[1] as int - 0x80) * 64 + (bs[2] as int - 0x80);
        if IsScalar(n) then Some((n as char, 3)) else None
      else None
    else if b0 < 0xF8 then
      if |bs| >= 4 && IsContinuation(bs[1]) && IsContinuation(bs[2]) && IsContinuation(bs[3]) then
        var n: int := (b0 - 0xF0) * 262144 + (bs[1] as int - 0x80) * 4096
          + (bs[2] as int - 0x80) * 64 + (bs[3] as int - 0x80);
        if IsScalar(n) then Some((n as char, 4)) else None
      else None
    else None
  }

  function Utf8Decode(bs: seq<Byte>): Option<string>
    decreases |bs|
  {
    if bs == [] then Some("")
    else
      match DecodeOne(bs)
      case None => None
      case Some((c, k)) =>
        match Utf8Decode(bs[k..])
        case None => None
        case Some(rest) => Some([c] + rest)
  }

  /** The decoded text of a percent-encoded component. */
  function DecodeText(t: string): Option<string> {
    match Decode(t)
    case None => None
    case Some(bs) => Utf8Decode(bs)
  }

  lemma Utf8CharTwo(n: int)
    requires 0x80 <= n < 0x800
    ensures (n / 64) * 64 + n % 64 == n
    ensures 2 <= n / 64 < 32
  {
  }

  lemma Utf8CharThree(n: int)
    requires 0x800 <= n < 0x1_0000
    ensures (n / 4096) * 4096 + ((n / 64) % 64) * 64 + n % 64 == n
    ensures n / 4096 < 16
  {
    assert n == (n / 64) * 64 + n % 64;
    assert n / 64 == ((n / 64) / 64) * 64 + (n / 64) % 64;
    assert (n / 64) / 64 == n / 4096;
  }

  lemma Utf8CharFour(n: int)
    requires 0x1_0000 <= n < 0x11_0000
    ensures (n / 262144) * 262144 + ((n / 4096) % 64) * 4096 + ((n / 64) % 64) * 64 + n % 64 == n
    ensures n / 262144 < 8
  {
    assert n == (n / 64) * 64 + n % 64;
    assert n / 64 == ((n / 64) / 64) * 64 + (n / 64) % 64;
    assert (n / 64) / 64 == n / 4096;
    assert n / 4096 == ((n / 4096) / 64) * 64 + (n / 4096) % 64;
    assert (n / 4096) / 64 == n / 262144;
  }

  /** The decoder reads back exactly the bytes `Utf8Char` wrote for `c`. */
  lemma DecodeOneUtf8Char(c: char, rest: seq<Byte>)
    ensures DecodeOne(Utf8Char(c) + rest) == Some((c, |Utf8Char(c)|))
  {
    var n := c as int;
    var bs := Utf8Char(c) + rest;
    if n < 0x80 {
    } else if n < 0x800 {
      Utf8CharTwo(n);
      assert bs[0] == 0xC0 + n / 64 && bs[1] == 0x80 + n % 64;
    } else if n < 0x1_0000 {
      Utf8CharThree(n);
      assert bs[0] == 0xE0 + n / 4096;
      assert bs[1] == 0x80 + (n / 64) % 64 && bs[2] == 0x80 + n % 64;
    } else {
      Utf8CharFour(n);
      assert bs[0] == 0xF0 + n / 262144;
      assert bs[1] == 0x80 + (n / 4096) % 64;
      assert bs[2] == 0x80 + (n / 64) % 64 && bs[3] == 0x80 + n % 64;
    }
  }

  /** UTF-8 decoding undoes UTF-8 encoding. */
  lemma {:induction false} Utf8RoundTrip(s: string)
    ensures Utf8Decode(Utf8(s)) == Some(s)
  {
    if s != [] {
      var head := Utf8Char(s[0]);
      var bs := Utf8(s);
      assert bs == head + Utf8(s[1..]);
      DecodeOneUtf8Char(s[0], Utf8(s[1..]));
      assert bs[|head|..] == Utf8(s[1..]);
      Utf8RoundTrip(s[1..]);
      assert s == [s[0]] + s[1..];
    }
  }

  /** Decoding an encoded component gives back the original text. */
  lemma DecodeTextEncode(s: string)
    ensures DecodeText(Encode(s)) == Some(s)
  {
    DecodeEncode(s);
    Utf8RoundTrip(s);
  }

  /** Distinct texts encode to distinct components. */
  lemma EncodeInjective(a: string, b: string)
    requires Encode(a) == Encode(b)
    ensures a == b
  {
    DecodeTextEncode(a);
    DecodeTextEncode(b);
  }
}

=== FILE: wrappers.dfy ===
/** Optional values and results shared by every module of the model: `None`
    stands for JavaScript's `undefined`, and a `Failure` carries the error message
    a handler sends back. */
module Wrappers {

  datatype Option<+T> = None | Some(value: T)

  datatype Result<+R, +E> = Success(value: R) | Failure(error: E)
}
